=== FILE: README.md ===
# Task-manager authentication core in Dafny

This project models the server-side core of a multi-user todo application:
the `POST /auth/register` and `POST /auth/login` handlers, the request and
response bodies they and the task endpoints accept, and the two persisted
entities, `User` and `Task`. The database is replaced by maps, and the
cryptography by opaque functions supplied by the caller.

Modules. `Models`, `Schemas` and `Auth` follow one source file each; the
other three are supporting pieces:

- `Wrappers` (`wrappers.dfy`): a utility module holding `Option` and `Result`.
- `Text` (`text.dfy`): two Python built-in methods, `str.lower()` and
  `str.strip()` on ASCII, and the email normal form `s.lower().strip()`. Stripping is characterised
  independently of its implementation (`StripCharacterised`). The normal form
  is shown idempotent and blind to letter case and to surrounding blanks.
- `Models` (`models.dfy`): the `users` table as `map<string, User>` keyed by
  id, with its invariant `UsersValid`. The invariant says each row sits under
  its own id, emails are stored normalised, and emails are unique. Also the
  `Task` row with its declared defaults, and the `tasks` table with its
  serial id and its `VARCHAR(200)` title column.
- `Schemas` (`schemas.dfy`): the DTOs. Each request body has a parser that
  accepts exactly the bodies within the declared length bounds. On rejection
  it reports one error per violated bound, the way the validation layer
  answers 422.
- `Auth` (`auth.dfy`): `Register` and `Login` over a validated body, the
  token payload, and the `Crypto` record. `Crypto` holds the bcrypt hash (with
  an explicit salt), the bcrypt check and the JWT signer.
- `AuthFlow` (`auth_flow.dfy`): the web framework's validate-then-dispatch
  step for both endpoints, as one state machine `Handle` over the `users`
  table. Validation comes first, then normalisation. `Run`
  handles a sequence of requests. The lemmas relate several requests.

Randomness and the clock are parameters. A registration takes the drawn UUID
(`freshId`), the bcrypt salt, and two clock readings: the row's `created_at`
and the token's issue time. The register handler reads the clock twice
(backend/app/routers/auth.py:40, 88). Times are
integers in microseconds since the epoch, the resolution of Python's
`datetime`.

The code puts no length bound on a task description
(backend/app/schemas.py:49, backend/app/models.py:53), and the update body
makes every field optional, including `is_completed`
(backend/app/schemas.py:55-57); the model does the same.

## Model

| member | source | states |
|---|---|---|
| `Text.Lower` | backend/app/routers/auth.py:68 | `lower()` keeps the length, leaves no ASCII upper-case letter, and changes nothing but letter case |
| `Text.TrimStart` | backend/app/routers/auth.py:86 | the result is a suffix of the input, everything dropped is whitespace, and the result does not start with whitespace |
| `Text.TrimEnd` | backend/app/routers/auth.py:86 | the result is a prefix of the input, everything dropped is whitespace, and the result does not end with whitespace |
| `Text.Strip` | backend/app/routers/auth.py:86 | `strip()` returns a contiguous piece of the input with only whitespace around it, and neither end of the piece is whitespace |
| `Text.StripCharacterised` | backend/app/routers/auth.py:86 | any blank prefix plus a stripped core plus any blank suffix strips to exactly that core, so `strip` is determined by its specification |
| `Text.StripIdempotent` | backend/app/routers/auth.py:86 | stripping a stripped string changes nothing |
| `Text.Normalise` | backend/app/routers/auth.py:68 | `lower().strip()` yields a string with no upper-case letter and no surrounding whitespace |
| `Text.NormaliseFixesNormalised` | backend/app/models.py:19 | an email already stored in normal (lower-case, stripped) form is its own normal form |
| `Text.NormaliseIdempotent` | backend/app/routers/auth.py:121 | normalising an already normalised email returns it unchanged |
| `Text.NormaliseIgnoresCase` | backend/app/routers/auth.py:121 | two emails that differ only in letter case have the same normal form |
| `Text.NormaliseIgnoresSurroundingSpace` | backend/app/routers/auth.py:121 | leading and trailing whitespace does not change an email's normal form |
| `Models.NewTask` | backend/app/models.py:50-54 | a freshly built task has no id, no description and is not completed; it is well-formed exactly when its title has 1 to 200 characters |
| `Models.EmptyTasksValid` | backend/app/models.py:50 | the empty table with its serial at 1 satisfies the table invariant, and the first task stored in it gets id 1 |
| `Models.FitColumn` | backend/app/models.py:52 | a `VARCHAR(200)` column takes a string as is when it fits, cuts it to 200 characters when everything past them is a space, and refuses it otherwise |
| `Models.Insert` | backend/app/models.py:50-52 | storing a task is refused, leaving the table alone, exactly when its title runs past 200 characters with a non-space in the excess; otherwise it gets an id no stored row has, only the id (and a cut of trailing spaces past 200) changes, every other row is kept, and the table invariant, which bounds every stored title by 200, holds afterwards |
| `Schemas.CheckLength` | backend/app/schemas.py:14-16 | a length-bounded field yields no error exactly when it is within bounds, and otherwise exactly the too-short or too-long error for that field |
| `Schemas.CheckOptionalLength` | backend/app/schemas.py:55 | an absent optional field is never rejected; a present one is checked like a required field |
| `Schemas.ParseRegister` | backend/app/schemas.py:11-16 | the registration body is accepted iff the name has 1 to 100 characters, the email 5 to 255 and the password 8 to 128, and the accepted body holds the raw strings unchanged; a rejection lists every violated bound once, and no error other than the per-field length errors |
| `Schemas.ParseLogin` | backend/app/schemas.py:19-23 | the login body has no constraints: every email and password is accepted as given |
| `Schemas.ParseCreateTask` | backend/app/schemas.py:45-49 | a new task body is accepted iff its title has 1 to 200 characters; any description, or none, is kept as given |
| `Schemas.ParseUpdateTask` | backend/app/schemas.py:52-57 | an update body is accepted iff its title is absent or has 1 to 200 characters; every field may be absent |
| `Schemas.TitleBoundary` | backend/app/schemas.py:48 | a 200-character title is accepted; a 201-character title and an empty one are rejected with the matching error; the all-absent update is accepted |
| `Auth.AccessTokenPayload` | backend/app/routers/auth.py:38-46 | the token's claims carry the user id as `sub` and the email, and expire exactly seven days after issue |
| `Auth.CreateAccessToken` | backend/app/routers/auth.py:38-47 | the token is the signer applied to claims whose `sub` and `email` are the arguments, issued at `now` and expiring exactly seven days later |
| `Auth.AuthResponse` | backend/app/routers/auth.py:98-101 | the response carries the user's id, email and name, and a token signed over that user's claims |
| `Auth.FindByEmail` | backend/app/routers/auth.py:71-73 | the lookup finds a row iff some row has the email, and the row found has it |
| `Auth.AddUserKeepsValid` | backend/app/models.py:27-28 | adding a row under a new id, with an unused and normalised email, keeps the table invariant (ids match keys, emails unique and normalised) |
| `Auth.Enrol` | backend/app/routers/auth.py:82-101 | storing a new user adds exactly one row under its id, keeps all others, and answers with that user's public fields and token |
| `Auth.Register` | backend/app/routers/auth.py:54-101 | registration fails with 409 and its detail iff the normalised email is taken; it also fails on an id collision; otherwise it adds exactly one row holding the normalised email, the stripped name and the hash of the password, changes no other row, keeps the table invariant, and returns that user and a seven-day token |
| `Auth.Authenticate` | backend/app/routers/auth.py:123-148 | for a normalised email, login succeeds iff some row has that email and the password checks against its hash; every failure is the same 401 |
| `Auth.Login` | backend/app/routers/auth.py:108-148 | login succeeds iff a row with the normalised email exists and the password verifies; on success it returns that row's id, email and name and a seven-day token for it; every failure is the same 401 error |
| `AuthFlow.Handle` | backend/app/routers/auth.py:54-148 | each request keeps the table invariant; a login or any failure leaves the table as it was; rows are never changed or removed; an invalid registration body is rejected with 422 before anything else; a registration succeeds iff its raw body passes validation, its normalised email is not taken and its id is new, gets 409 when the body is valid but the email is taken, and on success stores and returns the stripped name and normalised email under the new id; a login succeeds iff some row holds the normalised email and accepts the password, and otherwise gets the 401 |
| `AuthFlow.Run` | backend/app/models.py:28 | over any sequence of requests the table invariant holds (no two users share an email), one response is produced per request, and existing rows are never altered |
| `AuthFlow.LoginIgnoresCaseAndSpace` | backend/app/routers/auth.py:121-126 | an email differing only in case and surrounding whitespace logs in exactly as the original would |
| `AuthFlow.RegisterIgnoresCaseAndSpace` | backend/app/routers/auth.py:68-73 | once the body has passed validation, `Register` gives the same outcome for an email differing only in case and surrounding whitespace |
| `AuthFlow.HandleRegisterIgnoresCaseAndSpace` | backend/app/routers/auth.py:54-73 | at the endpoint, two such spellings give the same outcome when both raw bodies pass validation |
| `AuthFlow.PaddingPassesValidation` | backend/app/schemas.py:15 | validation counts the raw characters: the four-character email "a@bc" gets 422, while " a@bc" passes and is stored as "a@bc" |
| `AuthFlow.PaddedEmailNormalised` | backend/app/routers/auth.py:68 | `" a@bc".lower().strip()` is `"a@bc"` |
| `AuthFlow.SecondRegistrationConflicts` | backend/app/routers/auth.py:70-79 | once an email is registered, any valid registration whose email normalises to it gets 409 and leaves the table unchanged |
| `AuthFlow.LoginAfterRegister` | backend/app/routers/auth.py:121-148 | after a successful registration, logging in with the same password and any spelling of the email succeeds as the new user, assuming bcrypt accepts a password against its own hash |
| `AuthFlow.LoginFailuresIndistinguishable` | backend/app/routers/auth.py:128-140 | an unknown email and a wrong password give the identical result: 401 with "Invalid email or password" |
| `AuthFlow.BlankNameStoredEmpty` | backend/app/routers/auth.py:86 | a name of three spaces passes validation yet is stored, and returned, as the empty string |

## Left out

- bcrypt: `hash_password` and `verify_password` are the opaque `Crypto.hash` and `Crypto.verify`. Salt generation is the `salt` parameter. That a password verifies against its own hash is an explicit hypothesis of `AuthFlow.LoginAfterRegister`, because the handlers do not promise it.
- `Auth.Register`: the collaborators `hash_password`, `uuid4` and the clock never fail in the model (backend/app/routers/auth.py:82-88). bcrypt only looks at the first 72 bytes of a password, and the request body allows up to 128 characters (backend/app/schemas.py:16), which is up to 512 UTF-8 bytes. Depending on the bcrypt version, a longer password either raises an error, ending the request in a 500 with nothing stored, or is silently cut to 72 bytes. Which version is installed is not fixed by the files modelled here. The model takes the second reading: `Crypto.hash` is total, and whatever it does with long passwords stays inside it.
- JWT signing: `Crypto.encode` is opaque, and only the payload is modelled. The signer also turns the `iat`/`exp` datetimes into whole seconds; the model keeps them in microseconds.
- The database session: select, add, commit and refresh are map operations. The unique index on `email` (backend/app/models.py:28) is `EmailsUnique`. `UsersValid` adds that each row sits under its own primary key and that every email is stored normalised. Those hold because the register handler is the only code here that writes `users`, and it stores the normalised email (backend/app/models.py:19 documents emails as stored lower-case).
- A UUID that collides with an existing id: the insert fails at commit. The handler does not catch that, so the model ends the request with `InternalError500` and leaves the table unchanged.
- Concurrency: two registrations of the same email racing between the lookup and the commit are not modelled. Each request is handled atomically.
- Unicode: `lower()` and `strip()` act on ASCII only. ASCII letters are folded, and whitespace is what Python's `str.isspace` accepts below code point 128. Non-ASCII case mapping and non-ASCII whitespace are not modelled.
- Type coercion by the validation layer: a body field that is not a string (or a boolean, for `is_completed`) is outside the model.
- `Models.Insert`: covers inserting a task that has no id yet, with the title column's 200-character limit. The `min_length=1` bound is not a column constraint, so an empty title is stored. Inserting a row with an explicit id, and updating rows, belong to the tasks router, which is not part of this model.
- The `Task` title bounds: they are a predicate (`Task.WellFormed`) and a condition of the task DTOs. Building a `Task` row does not check them, so `Models.NewTask` states when a task is well-formed rather than refusing one. Storing a row enforces only the 200-character column limit (`Models.Insert`).
- The `User.created_at` default: the register handler always passes a value, so the default is not used.
- backend/app/main.py: application wiring, CORS, table creation at start-up and the health endpoint.
- backend/app/config.py: reading the environment.
- The tasks router, the per-request authorization check and the client's optimistic updates are not part of this model.

=== FILE: auth.dfy ===
/**
 * The `/auth/register` and `/auth/login` handlers over an in-memory
 * `users` table. Password hashing, hash checking and token signing are
 * opaque: they are fields of a `Crypto` record supplied by the caller, and
 * the randomness and clock readings the handlers use are parameters.
 */
module Auth {
  import opened Wrappers
  import opened Text
  import opened Models
  import opened Schemas

  const JwtExpirationDays: nat := 7
  const MicrosPerDay: nat := 24 * 60 * 60 * 1_000_000

  /** The claims of an access token, before signing. */
  datatype TokenPayload = TokenPayload(sub: string, email: string, iat: Timestamp, exp: Timestamp)

  /**
   * The cryptographic collaborators: `hash(password, salt)` is bcrypt with a
   * given salt, `verify(password, hash)` is bcrypt's check, and `encode`
   * signs a payload with the server secret.
   */
  datatype Crypto = Crypto(
    hash: (string, string) -> string,
    verify: (string, string) -> bool,
    encode: TokenPayload -> string
  )

  /** How a request ends when it does not succeed. */
  datatype ApiError =
    | HttpException(status: nat, detail: string)
    | Unprocessable422(errors: seq<FieldError>)
    | InternalError500

  const EmailAlreadyRegistered := HttpException(409, "A user with this email already exists")
  const InvalidCredentials := HttpException(401, "Invalid email or password")

  /** The claims issued at `now` for a user: valid for exactly seven days. */
  function AccessTokenPayload(userId: string, email: string, now: Timestamp): (p: TokenPayload)
    ensures p.sub == userId && p.email == email && p.iat == now
    ensures p.exp - p.iat == 7 * 86_400 * 1_000_000
  {
    TokenPayload(userId, email, now, now + JwtExpirationDays * MicrosPerDay)
  }

  /** A token signed over claims for this user that expire seven days after `now`. */
  function CreateAccessToken(crypto: Crypto, userId: string, email: string, now: Timestamp): (t: string)
    ensures exists p: TokenPayload :: && t == crypto.encode(p)
                                      && p.sub == userId && p.email == email && p.iat == now
                                      && p.exp - p.iat == 7 * 86_400 * 1_000_000
  {
    var p := AccessTokenPayload(userId, email, now);
    assert p.exp - p.iat == 7 * 86_400 * 1_000_000;
    crypto.encode(p)
  }

  /** The success body for a user: its public fields and a fresh token. */
  function AuthResponse(crypto: Crypto, user: User, now: Timestamp): (r: AuthResponseDTO)
    ensures r.user.id == user.id && r.user.email == user.email && r.user.name == user.name
    ensures r.token == crypto.encode(AccessTokenPayload(user.id, user.email, now))
  {
    AuthResponseDTO(UserDTO(user.id, user.email, user.name), CreateAccessToken(crypto, user.id, user.email, now))
  }

  /** `select(User).where(User.email == email).first()`, by primary key. */
  function FindByEmail(users: Users, email: string): (r: Option<string>)
    requires EmailsUnique(users)
    ensures r.None? <==> !EmailTaken(users, email)
    ensures r.Some? ==> r.value in users && users[r.value].email == email
  {
    if EmailTaken(users, email) then
      var id :| id in users && users[id].email == email; Some(id)
    else
      None
  }

  lemma AddUserKeepsValid(users: Users, user: User)
    requires user.id !in users
    ensures UsersValid(users) && !EmailTaken(users, user.email) && IsNormalised(user.email) ==> UsersValid(users[user.id := user])
  {
  }

  /** The table after a successful registration, with the response body. */
  datatype Registered = Registered(users: Users, response: AuthResponseDTO)

  /** Storing a new row under its own fresh id, and answering for it. */
  function Enrol(users: Users, crypto: Crypto, user: User, issuedAt: Timestamp): (r: Registered)
    requires user.id !in users
    ensures r.users.Keys == users.Keys + {user.id} && |r.users| == |users| + 1
    ensures forall id :: id in users ==> r.users[id] == users[id]
    ensures r.users[user.id] == user
    ensures r.response.user == UserDTO(user.id, user.email, user.name)
    ensures r.response.token == crypto.encode(AccessTokenPayload(user.id, user.email, issuedAt))
    ensures UsersValid(users) && !EmailTaken(users, user.email) && IsNormalised(user.email) ==> UsersValid(r.users)
  {
    AddUserKeepsValid(users, user);
    Registered(users[user.id := user], AuthResponse(crypto, user, issuedAt))
  }

  /**
   * Registration of a validated body. `freshId` is the drawn UUID, `salt`
   * the bcrypt salt, `createdAt` and `issuedAt` the two clock readings (row
   * creation and token issue).
   */
  function Register(users: Users, crypto: Crypto, data: RegisterDTO, freshId: string, salt: string,
                    createdAt: Timestamp, issuedAt: Timestamp): (r: Result<Registered, ApiError>)
    ensures EmailTaken(users, Normalise(data.email)) ==> r == Err(EmailAlreadyRegistered)
    ensures !EmailTaken(users, Normalise(data.email)) && freshId in users ==> r == Err(InternalError500)
    ensures r.Ok? <==> !EmailTaken(users, Normalise(data.email)) && freshId !in users
    ensures r.Ok? ==> r.value.users.Keys == users.Keys + {freshId} && |r.value.users| == |users| + 1
    ensures r.Ok? ==> forall id :: id in users ==> r.value.users[id] == users[id]
    ensures r.Ok? ==> var u := r.value.users[freshId];
      && u.id == freshId
      && u.email == Normalise(data.email)
      && u.name == Strip(data.name)
      && u.passwordHash == crypto.hash(data.password, salt)
      && u.createdAt == createdAt
    ensures r.Ok? ==> r.value.response.user == UserDTO(freshId, Normalise(data.email), Strip(data.name))
    ensures r.Ok? ==>
      r.value.response.token == crypto.encode(AccessTokenPayload(freshId, Normalise(data.email), issuedAt))
    ensures r.Ok? && UsersValid(users) ==> UsersValid(r.value.users)
  {
    var email := Normalise(data.email);
    if EmailTaken(users, email) then
      Err(EmailAlreadyRegistered)
    else if freshId in users then
      Err(InternalError500)
    else
      Ok(Enrol(users, crypto, User(freshId, email, Strip(data.name), crypto.hash(data.password, salt), createdAt), issuedAt))
  }

  /** A user with this stored email exists and the password checks against its hash. */
  predicate Accepts(users: Users, crypto: Crypto, email: string, password: string, id: string) {
    id in users && users[id].email == email && crypto.verify(password, users[id].passwordHash)
  }

  /** The login decision for an already normalised email. */
  function Authenticate(users: Users, crypto: Crypto, email: string, password: string, issuedAt: Timestamp): (r: Result<AuthResponseDTO, ApiError>)
    requires EmailsUnique(users)
    ensures r.Err? ==> r.error == InvalidCredentials
    ensures r.Ok? <==> exists id :: Accepts(users, crypto, email, password, id)
    ensures r.Ok? ==> exists id :: Accepts(users, crypto, email, password, id)
                                   && r.value.user == UserDTO(users[id].id, users[id].email, users[id].name)
                                   && r.value.token == crypto.encode(AccessTokenPayload(users[id].id, email, issuedAt))
  {
    match FindByEmail(users, email)
    case None => Err(InvalidCredentials)
    case Some(id) =>
      assert forall other :: Accepts(users, crypto, email, password, other) ==> other == id;
      if !crypto.verify(password, users[id].passwordHash) then Err(InvalidCredentials)
      else
        assert Accepts(users, crypto, email, password, id);
        Ok(AuthResponse(crypto, users[id], issuedAt))
  }

  /**
   * Login with a body. Both failures, unknown email and wrong password,
   * end in the same error. The table is only read.
   */
  function Login(users: Users, crypto: Crypto, data: LoginDTO, issuedAt: Timestamp): (r: Result<AuthResponseDTO, ApiError>)
    requires EmailsUnique(users)
    ensures r.Err? ==> r.error == InvalidCredentials
    ensures r.Ok? <==> exists id :: Accepts(users, crypto, Normalise(data.email), data.password, id)
    ensures r.Ok? ==> exists id :: Accepts(users, crypto, Normalise(data.email), data.password, id)
                                   && r.value.user == UserDTO(users[id].id, users[id].email, users[id].name)
                                   && r.value.token == crypto.encode(AccessTokenPayload(users[id].id, Normalise(data.email), issuedAt))
  {
    Authenticate(users, crypto, Normalise(data.email), data.password, issuedAt)
  }
}

=== FILE: auth_flow.dfy ===
/**
 * The authentication endpoints as a state machine over the `users` table.
 * A request body is validated first (422 on failure) and only then handed
 * to its handler; the handler normalises what it stores. Properties that
 * relate several requests live here.
 */
module AuthFlow {
  import opened Wrappers
  import opened Text
  import opened Models
  import opened Schemas
  import opened Auth

  /**
   * One request with the raw body fields. A registration also carries what
   * the server draws while handling it: the UUID, the bcrypt salt and the
   * two clock readings.
   */
  datatype Request =
    | RegisterRequest(name: string, email: string, password: string,
                      freshId: string, salt: string, createdAt: Timestamp, issuedAt: Timestamp)
    | LoginRequest(email: string, password: string, issuedAt: Timestamp)

  /** The table after a request, and what the client receives. */
  datatype Outcome = Outcome(users: Users, response: Result<AuthResponseDTO, ApiError>)

  /** `POST /auth/register` or `POST /auth/login`, body validation included. */
  function Handle(users: Users, crypto: Crypto, req: Request): (o: Outcome)
    requires UsersValid(users)
    ensures UsersValid(o.users)
    ensures o.response.Err? || req.LoginRequest? ==> o.users == users
    ensures forall id :: id in users ==> id in o.users && o.users[id] == users[id]
    ensures o.users != users ==> req.RegisterRequest? && req.freshId !in users
                                 && o.users.Keys == users.Keys + {req.freshId}
    ensures req.RegisterRequest? && !RegisterValid(req.name, req.email, req.password) ==>
              o.response.Err? && o.response.error.Unprocessable422?
    ensures req.RegisterRequest? && o.response.Ok? ==>
              && RegisterValid(req.name, req.email, req.password)
              && req.freshId in o.users
              && o.users[req.freshId].name == Strip(req.name)
              && o.users[req.freshId].email == Normalise(req.email)
              && o.response.value.user == UserDTO(req.freshId, Normalise(req.email), Strip(req.name))
    ensures req.RegisterRequest? ==>
              (o.response.Ok? <==> && RegisterValid(req.name, req.email, req.password)
                                   && !EmailTaken(users, Normalise(req.email))
                                   && req.freshId !in users)
    ensures req.RegisterRequest? && RegisterValid(req.name, req.email, req.password)
            && EmailTaken(users, Normalise(req.email)) ==>
              o.response == Err(EmailAlreadyRegistered)
    ensures req.LoginRequest? ==>
              (o.response.Ok? <==> exists id :: Accepts(users, crypto, Normalise(req.email), req.password, id))
    ensures req.LoginRequest? && o.response.Err? ==> o.response.error == InvalidCredentials
  {
    match req
    case RegisterRequest(name, email, password, freshId, salt, createdAt, issuedAt) =>
      (match ParseRegister(name, email, password)
       case Err(errors) => Outcome(users, Err(Unprocessable422(errors)))
       case Ok(data) =>
         match Register(users, crypto, data, freshId, salt, createdAt, issuedAt)
         case Err(e) => Outcome(users, Err(e))
         case Ok(registered) => Outcome(registered.users, Ok(registered.response)))
    case LoginRequest(email, password, issuedAt) =>
      match ParseLogin(email, password)
      case Err(errors) => Outcome(users, Err(Unprocessable422(errors)))
      case Ok(data) => Outcome(users, Login(users, crypto, data, issuedAt))
  }

  /** The table after a whole sequence of requests, with every response in order. */
  datatype Trace = Trace(users: Users, responses: seq<Result<AuthResponseDTO, ApiError>>)

  /**
   * Requests handled one after another. No sequence of requests can break
   * the table's invariant (in particular, two rows never share an email),
   * and no row is ever changed or removed.
   */
  function Run(users: Users, crypto: Crypto, reqs: seq<Request>): (t: Trace)
    requires UsersValid(users)
    ensures UsersValid(t.users)
    ensures |t.responses| == |reqs|
    ensures forall id :: id in users ==> id in t.users && t.users[id] == users[id]
    ensures |t.users| <= |users| + |reqs|
    decreases |reqs|
  {
    if reqs == [] then Trace(users, [])
    else
      var o := Handle(users, crypto, reqs[0]);
      assert |o.users| <= |users| + 1 by {
        if o.users != users {
          assert o.users.Keys == users.Keys + {reqs[0].freshId};
        }
      }
      var rest := Run(o.users, crypto, reqs[1..]);
      Trace(rest.users, [o.response] + rest.responses)
  }

  /**
   * An email that differs only in letter case and surrounding whitespace
   * logs in exactly as the original would.
   */
  lemma LoginIgnoresCaseAndSpace(users: Users, crypto: Crypto, pre: string, variant: string, post: string,
                                 email: string, password: string, issuedAt: Timestamp)
    requires EmailsUnique(users)
    requires AllSpace(pre) && AllSpace(post) && SameIgnoringCase(variant, email)
    ensures Login(users, crypto, LoginDTO(pre + variant + post, password), issuedAt)
         == Login(users, crypto, LoginDTO(email, password), issuedAt)
  {
    NormaliseIgnoresSurroundingSpace(pre, variant, post);
    NormaliseIgnoresCase(variant, email);
  }

  /**
   * Likewise, once the body has passed validation, registration stores and
   * checks the same address for both spellings.
   */
  lemma RegisterIgnoresCaseAndSpace(users: Users, crypto: Crypto, name: string, pre: string, variant: string,
                                    post: string, email: string, password: string, freshId: string,
                                    salt: string, createdAt: Timestamp, issuedAt: Timestamp)
    requires AllSpace(pre) && AllSpace(post) && SameIgnoringCase(variant, email)
    ensures Register(users, crypto, RegisterDTO(name, pre + variant + post, password), freshId, salt, createdAt, issuedAt)
         == Register(users, crypto, RegisterDTO(name, email, password), freshId, salt, createdAt, issuedAt)
  {
    NormaliseIgnoresSurroundingSpace(pre, variant, post);
    NormaliseIgnoresCase(variant, email);
  }

  /**
   * At the endpoint, both spellings register alike only when both raw
   * bodies pass validation: the length bounds count the characters as sent,
   * before any normalisation.
   */
  lemma HandleRegisterIgnoresCaseAndSpace(users: Users, crypto: Crypto, name: string, pre: string, variant: string,
                                          post: string, email: string, password: string, freshId: string,
                                          salt: string, createdAt: Timestamp, issuedAt: Timestamp)
    requires UsersValid(users)
    requires AllSpace(pre) && AllSpace(post) && SameIgnoringCase(variant, email)
    requires RegisterValid(name, pre + variant + post, password) && RegisterValid(name, email, password)
    ensures Handle(users, crypto, RegisterRequest(name, pre + variant + post, password, freshId, salt, createdAt, issuedAt))
         == Handle(users, crypto, RegisterRequest(name, email, password, freshId, salt, createdAt, issuedAt))
  {
    RegisterIgnoresCaseAndSpace(users, crypto, name, pre, variant, post, email, password,
                                freshId, salt, createdAt, issuedAt);
  }

  /**
   * Validation comes before normalisation: a four-character email is
   * refused with 422, while the same address with one leading space passes
   * validation and registers.
   */
  lemma PaddingPassesValidation(crypto: Crypto, salt: string, now: Timestamp)
    ensures var o := Handle(map[], crypto, RegisterRequest("n", "a@bc", "password1", "u1", salt, now, now));
            o.response.Err? && o.response.error.Unprocessable422?
    ensures var o := Handle(map[], crypto, RegisterRequest("n", " a@bc", "password1", "u1", salt, now, now));
            o.response.Ok? && o.users["u1"].email == "a@bc"
  {
    assert !RegisterValid("n", "a@bc", "password1");
    assert RegisterValid("n", " a@bc", "password1");
    PaddedEmailNormalised();
  }

  /** The padded address of `PaddingPassesValidation` normalises to the bare one. */
  lemma PaddedEmailNormalised()
    ensures Normalise(" a@bc") == "a@bc"
  {
    var s := " a@bc";
    assert Lower(s) == s by {
      forall i | 0 <= i < |s| ensures Lower(s)[i] == s[i] {
        assert !IsUpper(s[i]);
      }
    }
    assert s == " " + "a@bc" + "";
    StripCharacterised(" ", "a@bc", "");
  }

  /**
   * Once an address is registered, a second registration whose email
   * normalises to the same address is refused with 409 and changes nothing.
   */
  lemma SecondRegistrationConflicts(users: Users, crypto: Crypto, first: Request, second: Request)
    requires UsersValid(users)
    requires first.RegisterRequest? && second.RegisterRequest?
    requires RegisterValid(first.name, first.email, first.password)
    requires first.freshId !in users && !EmailTaken(users, Normalise(first.email))
    requires RegisterValid(second.name, second.email, second.password)
    requires Normalise(second.email) == Normalise(first.email)
    ensures var after := Handle(users, crypto, first).users;
            Handle(after, crypto, second) == Outcome(after, Err(EmailAlreadyRegistered))
  {
  }

  /**
   * After a registration that the handler accepts, logging in with the same
   * password (in any spelling of the email) succeeds as the new user, provided the password
   * checks against its own hash. bcrypt promises that; the handlers do not,
   * so it is an assumption here.
   */
  lemma LoginAfterRegister(users: Users, crypto: Crypto, reg: Request, loginEmail: string, loginAt: Timestamp)
    requires UsersValid(users)
    requires reg.RegisterRequest? && RegisterValid(reg.name, reg.email, reg.password)
    requires reg.freshId !in users && !EmailTaken(users, Normalise(reg.email))
    requires crypto.verify(reg.password, crypto.hash(reg.password, reg.salt))
    requires Normalise(loginEmail) == Normalise(reg.email)
    ensures var after := Handle(users, crypto, reg).users;
            var r := Handle(after, crypto, LoginRequest(loginEmail, reg.password, loginAt)).response;
            r.Ok? && r.value.user == UserDTO(reg.freshId, Normalise(reg.email), Strip(reg.name))
  {
    var after := Handle(users, crypto, reg).users;
    var data := RegisterDTO(reg.name, reg.email, reg.password);
    assert ParseRegister(reg.name, reg.email, reg.password) == Ok(data);
    var registered := Register(users, crypto, data, reg.freshId, reg.salt, reg.createdAt, reg.issuedAt);
    assert registered.Ok? && after == registered.value.users;
    assert Accepts(after, crypto, Normalise(loginEmail), reg.password, reg.freshId);
    var r := Login(after, crypto, LoginDTO(loginEmail, reg.password), loginAt);
    var id :| Accepts(after, crypto, Normalise(loginEmail), reg.password, id)
              && r.value.user == UserDTO(after[id].id, after[id].email, after[id].name);
    assert id == reg.freshId;
  }

  /**
   * An unknown email and a known email with the wrong password are
   * indistinguishable to the client: both yield the same 401 and detail.
   */
  lemma LoginFailuresIndistinguishable(users: Users, crypto: Crypto, unknown: LoginDTO, wrong: LoginDTO,
                                       t1: Timestamp, t2: Timestamp)
    requires EmailsUnique(users)
    requires !EmailTaken(users, Normalise(unknown.email))
    requires EmailTaken(users, Normalise(wrong.email))
    requires forall id :: id in users && users[id].email == Normalise(wrong.email) ==>
               !crypto.verify(wrong.password, users[id].passwordHash)
    ensures Login(users, crypto, unknown, t1) == Login(users, crypto, wrong, t2)
    ensures Login(users, crypto, unknown, t1) == Err(HttpException(401, "Invalid email or password"))
  {
  }

  /**
   * Validation runs on the raw name and storage keeps the stripped one: a
   * name of three spaces is accepted and stored as the empty string.
   */
  lemma BlankNameStoredEmpty(crypto: Crypto, salt: string, now: Timestamp)
    ensures var o := Handle(map[], crypto, RegisterRequest("   ", "a@b.io", "password1", "u1", salt, now, now));
            && o.response.Ok?
            && o.users["u1"].name == ""
            && o.response.value.user.name == ""
  {
  }
}

=== FILE: models.dfy ===
/**
 * The two persisted entities, `User` and `Task`, and the tables that hold
 * them. A table is a map from primary key to row; the database's own
 * guarantees (primary keys, the unique email index, the serial task id)
 * become predicates over those maps.
 */
module Models {
  import opened Wrappers
  import opened Text

  /** A point in time, in microseconds since the Unix epoch (UTC). */
  type Timestamp = int

  /** A row of the `users` table. */
  datatype User = User(
    id: string,
    email: string,
    name: string,
    passwordHash: string,
    createdAt: Timestamp
  )

  /** The `users` table, keyed by the primary key `id`. */
  type Users = map<string, User>

  /** The unique index on `email`: no two rows share an address. */
  predicate EmailsUnique(users: Users) {
    forall a, b :: a in users && b in users && a != b ==> users[a].email != users[b].email
  }

  /** Some row of the table has this email. */
  predicate EmailTaken(users: Users, email: string) {
    exists id :: id in users && users[id].email == email
  }

  /**
   * What every reachable `users` table satisfies: each row sits under its
   * own id, every email is stored in normal (lower-case, stripped) form,
   * and emails are unique.
   */
  predicate UsersValid(users: Users) {
    && (forall id :: id in users ==> users[id].id == id && IsNormalised(users[id].email))
    && EmailsUnique(users)
  }

  const TitleMinLength: nat := 1
  const TitleMaxLength: nat := 200

  predicate TitleInBounds(title: string) {
    TitleMinLength <= |title| <= TitleMaxLength
  }

  /**
   * A row of the `tasks` table. `id` is `None` until the database assigns
   * one on insertion.
   */
  datatype Task = Task(
    id: Option<int>,
    userId: string,
    title: string,
    description: Option<string>,
    isCompleted: bool,
    createdAt: Timestamp,
    updatedAt: Timestamp
  ) {
    /** The declared column constraint on `title`. */
    predicate WellFormed() {
      TitleInBounds(title)
    }
  }

  /**
   * A task built from an owner and a title alone; every other column takes
   * its declared default. The two timestamps come from two separate reads
   * of the clock.
   */
  function NewTask(userId: string, title: string, createdAt: Timestamp, updatedAt: Timestamp): (t: Task)
    ensures t.id.None? && t.description.None? && !t.isCompleted
    ensures t.userId == userId && t.title == title
    ensures t.WellFormed() <==> 1 <= |title| <= 200
  {
    Task(None, userId, title, None, false, createdAt, updatedAt)
  }

  /** The `tasks` table with its serial id counter (the next id to hand out). */
  datatype TaskTable = TaskTable(rows: map<int, Task>, nextId: int)

  /** A fresh table: no rows, and the serial starts at 1. */
  const EmptyTasks := TaskTable(map[], 1)

  /**
   * Every row carries its own key, every key was handed out by the serial,
   * and every stored title fits the `VARCHAR(200)` column.
   */
  predicate TasksValid(t: TaskTable) {
    && 1 <= t.nextId
    && forall k :: k in t.rows ==>
         && 1 <= k < t.nextId
         && t.rows[k].id == Some(k)
         && |t.rows[k].title| <= TitleMaxLength
  }

  /** The fresh table satisfies the table invariant, and its first row gets id 1. */
  lemma EmptyTasksValid(task: Task)
    requires task.id.None?
    requires |task.title| <= TitleMaxLength
    ensures TasksValid(EmptyTasks)
    ensures Insert(EmptyTasks, task).Ok?
    ensures Insert(EmptyTasks, task).value.1.id == Some(1)
    ensures Insert(EmptyTasks, task).value.0.rows.Keys == {1}
  {
  }

  /** Why the database refuses a row. */
  datatype StoreError =
    /** The title has a non-blank character past the column's 200 characters. */
    | TitleTooLong

  /** `s` holds only the space character from position `n` on. */
  predicate SpacesFrom(s: string, n: nat) {
    forall i :: n <= i < |s| ==> s[i] == ' '
  }

  /**
   * How a `VARCHAR(n)` column takes a string: as is when it fits; cut to
   * `n` characters when everything past them is a space; refused otherwise.
   */
  function FitColumn(s: string, n: nat): (r: Option<string>)
    ensures r.Some? <==> |s| <= n || SpacesFrom(s, n)
    ensures r.Some? ==> |r.value| <= n && r.value <= s && SpacesFrom(s, |r.value|)
    ensures r.Some? && |s| <= n ==> r.value == s
  {
    if |s| <= n then Some(s)
    else if SpacesFrom(s, n) then Some(s[..n])
    else None
  }

  /**
   * Inserting a new task at commit: the database draws the id from the
   * serial and stores the task with that id filled in. The title column is
   * `VARCHAR(200)`, so a longer title is refused unless its excess is all
   * spaces, which are cut off. On refusal the table is unchanged.
   */
  function Insert(table: TaskTable, task: Task): (r: Result<(TaskTable, Task), StoreError>)
    requires TasksValid(table)
    requires task.id.None?
    ensures r.Err? <==> |task.title| > TitleMaxLength && !SpacesFrom(task.title, TitleMaxLength)
    ensures r.Ok? ==> r.value.1.id.Some? && r.value.1.id.value !in table.rows
    ensures r.Ok? ==> r.value.1 == task.(id := r.value.1.id, title := r.value.1.title)
    ensures r.Ok? ==> r.value.1.title <= task.title && |r.value.1.title| <= TitleMaxLength
    ensures r.Ok? ==> SpacesFrom(task.title, |r.value.1.title|)
    ensures r.Ok? && |task.title| <= TitleMaxLength ==> r.value.1 == task.(id := r.value.1.id)
    ensures r.Ok? ==> r.value.0.rows.Keys == table.rows.Keys + {r.value.1.id.value}
    ensures r.Ok? ==> r.value.0.rows[r.value.1.id.value] == r.value.1
    ensures r.Ok? ==> forall k :: k in table.rows ==> r.value.0.rows[k] == table.rows[k]
    ensures r.Ok? ==> TasksValid(r.value.0)
    ensures r.Ok? ==> r.value.0.nextId > table.nextId
  {
    match FitColumn(task.title, TitleMaxLength)
    case None => Err(TitleTooLong)
    case Some(title) =>
      var id := table.nextId;
      var stored := task.(id := Some(id), title := title);
      Ok((TaskTable(table.rows[id := stored], id + 1), stored))
  }
}

=== FILE: schemas.dfy ===
/**
 * Request and response bodies. A request body is validated field by field
 * before any handler runs; validation reports every failing field, in
 * declaration order, and never alters the values it accepts.
 */
module Schemas {
  import opened Wrappers
  import opened Models

  /** Why a string field was rejected, with the bound it broke. */
  datatype ErrorKind = StringTooShort(minLength: nat) | StringTooLong(maxLength: nat)

  datatype FieldError = FieldError(field: string, kind: ErrorKind)

  const NameMinLength: nat := 1
  const NameMaxLength: nat := 100
  const EmailMinLength: nat := 5
  const EmailMaxLength: nat := 255
  const PasswordMinLength: nat := 8
  const PasswordMaxLength: nat := 128

  datatype RegisterDTO = RegisterDTO(name: string, email: string, password: string)

  datatype LoginDTO = LoginDTO(email: string, password: string)

  /** The user as shown to clients: there is no password hash in it. */
  datatype UserDTO = UserDTO(id: string, email: string, name: string)

  datatype AuthResponseDTO = AuthResponseDTO(user: UserDTO, token: string)

  datatype CreateTaskDTO = CreateTaskDTO(title: string, description: Option<string>)

  datatype UpdateTaskDTO = UpdateTaskDTO(
    title: Option<string>,
    description: Option<string>,
    isCompleted: Option<bool>
  )

  /**
   * `errs` reports exactly the length violations of `value`: a too-short
   * error when it is shorter than `min`, a too-long error when it is longer
   * than `max`, and nothing else for this field.
   */
  predicate ReportsLength(errs: seq<FieldError>, field: string, value: string, min: nat, max: nat) {
    && (FieldError(field, StringTooShort(min)) in errs <==> |value| < min)
    && (FieldError(field, StringTooLong(max)) in errs <==> |value| > max)
  }

  /** The errors a `min_length`/`max_length` constraint yields for one field. */
  function CheckLength(field: string, value: string, min: nat, max: nat): (errs: seq<FieldError>)
    requires min <= max
    ensures errs == [] <==> min <= |value| <= max
    ensures |errs| <= 1 && forall e :: e in errs ==> e.field == field
    ensures ReportsLength(errs, field, value, min, max)
  {
    if |value| < min then [FieldError(field, StringTooShort(min))]
    else if |value| > max then [FieldError(field, StringTooLong(max))]
    else []
  }

  /** The same, for a field that may be absent: an absent value is never checked. */
  function CheckOptionalLength(field: string, value: Option<string>, min: nat, max: nat): (errs: seq<FieldError>)
    requires min <= max
    ensures value.None? ==> errs == []
    ensures value.Some? ==> (errs == [] <==> min <= |value.value| <= max)
    ensures value.Some? ==> ReportsLength(errs, field, value.value, min, max)
    ensures |errs| <= 1 && forall e :: e in errs ==> e.field == field
  {
    match value
    case None => []
    case Some(v) => CheckLength(field, v, min, max)
  }

  predicate RegisterValid(name: string, email: string, password: string) {
    && NameMinLength <= |name| <= NameMaxLength
    && EmailMinLength <= |email| <= EmailMaxLength
    && PasswordMinLength <= |password| <= PasswordMaxLength
  }

  /**
   * Validation of the registration body. The accepted DTO holds the raw
   * strings: nothing is trimmed or lower-cased here.
   */
  function ParseRegister(name: string, email: string, password: string): (r: Result<RegisterDTO, seq<FieldError>>)
    ensures r.Ok? <==> (1 <= |name| <= 100 && 5 <= |email| <= 255 && 8 <= |password| <= 128)
    ensures r.Ok? ==> r.value == RegisterDTO(name, email, password)
    ensures r.Err? ==> r.error != []
    ensures r.Err? ==> forall e :: e in r.error ==> e.field in ["name", "email", "password"]
    ensures r.Err? ==> && ReportsLength(r.error, "name", name, 1, 100)
                       && ReportsLength(r.error, "email", email, 5, 255)
                       && ReportsLength(r.error, "password", password, 8, 128)
    ensures r.Err? ==> forall e :: e in r.error ==>
              e in CheckLength("name", name, 1, 100) + CheckLength("email", email, 5, 255)
                   + CheckLength("password", password, 8, 128)
    ensures r.Err? ==> forall i, j :: 0 <= i < j < |r.error| ==> r.error[i] != r.error[j]
  {
    var n := CheckLength("name", name, NameMinLength, NameMaxLength);
    var e := CheckLength("email", email, EmailMinLength, EmailMaxLength);
    var p := CheckLength("password", password, PasswordMinLength, PasswordMaxLength);
    var errs := n + e + p;
    if errs == [] then Ok(RegisterDTO(name, email, password)) else Err(errs)
  }

  /** The login body has no constraints: every pair of strings is accepted as is. */
  function ParseLogin(email: string, password: string): (r: Result<LoginDTO, seq<FieldError>>)
    ensures r.Ok? && r.value.email == email && r.value.password == password
  {
    Ok(LoginDTO(email, password))
  }

  /** Validation of a new task: the title is bounded, the description is free. */
  function ParseCreateTask(title: string, description: Option<string>): (r: Result<CreateTaskDTO, seq<FieldError>>)
    ensures r.Ok? <==> 1 <= |title| <= 200
    ensures r.Ok? ==> r.value == CreateTaskDTO(title, description)
    ensures r.Err? ==> r.error != [] && ReportsLength(r.error, "title", title, 1, 200)
    ensures r.Err? ==> forall e :: e in r.error ==> e.field == "title"
  {
    var errs := CheckLength("title", title, TitleMinLength, TitleMaxLength);
    if errs == [] then Ok(CreateTaskDTO(title, description)) else Err(errs)
  }

  /**
   * Validation of a partial task update: every field may be absent, and a
   * title that is present obeys the same bounds as on creation.
   */
  function ParseUpdateTask(title: Option<string>, description: Option<string>, isCompleted: Option<bool>): (r: Result<UpdateTaskDTO, seq<FieldError>>)
    ensures r.Ok? <==> (title.None? || 1 <= |title.value| <= 200)
    ensures r.Ok? ==> r.value == UpdateTaskDTO(title, description, isCompleted)
    ensures r.Err? ==> title.Some? && ReportsLength(r.error, "title", title.value, 1, 200)
    ensures r.Err? ==> r.error != [] && forall e :: e in r.error ==> e.field == "title"
  {
    var errs := CheckOptionalLength("title", title, TitleMinLength, TitleMaxLength);
    if errs == [] then Ok(UpdateTaskDTO(title, description, isCompleted)) else Err(errs)
  }

  /** The title bound at its edges: 200 characters pass, 201 and 0 do not. */
  lemma TitleBoundary(t200: string, t201: string, description: Option<string>)
    requires |t200| == 200 && |t201| == 201
    ensures ParseCreateTask(t200, description).Ok?
    ensures ParseCreateTask(t201, description) == Err([FieldError("title", StringTooLong(200))])
    ensures ParseCreateTask("", description) == Err([FieldError("title", StringTooShort(1))])
    ensures ParseUpdateTask(Some(t201), description, None).Err?
    ensures ParseUpdateTask(None, None, None) == Ok(UpdateTaskDTO(None, None, None))
  {
  }
}

=== FILE: text.dfy ===
/**
 * The two Python string operations the authentication flow depends on,
 * `str.lower()` and `str.strip()`, restricted to ASCII: upper-case letters
 * are 'A'..'Z', and whitespace is what Python's `str.isspace` accepts below
 * code point 128 (space, 9..13 and 28..31).
 */
module Text {

  predicate IsSpace(c: char) {
    c == ' ' || 9 <= c as int <= 13 || 28 <= c as int <= 31
  }

  predicate IsUpper(c: char) {
    'A' <= c <= 'Z'
  }

  function LowerChar(c: char): char {
    if IsUpper(c) then (c as int + 32) as char else c
  }

  predicate AllSpace(s: string) {
    forall i :: 0 <= i < |s| ==> IsSpace(s[i])
  }

  predicate NoUpper(s: string) {
    forall i :: 0 <= i < |s| ==> !IsUpper(s[i])
  }

  /** Neither end of `s` is whitespace. */
  predicate IsStripped(s: string) {
    s == [] || (!IsSpace(s[0]) && !IsSpace(s[|s| - 1]))
  }

  /** What `s.lower().strip()` can return: no upper case, no surrounding blanks. */
  predicate IsNormalised(s: string) {
    NoUpper(s) && IsStripped(s)
  }

  /** Two strings that differ at most in the case of their letters. */
  predicate SameIgnoringCase(a: string, b: string) {
    |a| == |b| && forall i :: 0 <= i < |a| ==> LowerChar(a[i]) == LowerChar(b[i])
  }

  /** `s.lower()`: every letter mapped to lower case, position by position. */
  function Lower(s: string): (r: string)
    ensures |r| == |s| && NoUpper(r)
    ensures SameIgnoringCase(s, r)
  {
    seq(|s|, i requires 0 <= i < |s| => LowerChar(s[i]))
  }

  /** `s.lstrip()`: the suffix left after dropping leading whitespace. */
  function TrimStart(s: string): (r: string)
    ensures |r| <= |s| && r == s[|s| - |r|..]
    ensures forall i :: 0 <= i < |s| - |r| ==> IsSpace(s[i])
    ensures r == [] || !IsSpace(r[0])
  {
    if s != [] && IsSpace(s[0]) then TrimStart(s[1..]) else s
  }

  /** `s.rstrip()`: the prefix left after dropping trailing whitespace. */
  function TrimEnd(s: string): (r: string)
    ensures |r| <= |s| && r == s[..|r|]
    ensures forall i :: |r| <= i < |s| ==> IsSpace(s[i])
    ensures r == [] || !IsSpace(r[|r| - 1])
  {
    if s != [] && IsSpace(s[|s| - 1]) then TrimEnd(s[..|s| - 1]) else s
  }

  /** How many whitespace characters `strip` removes from the front of `s`. */
  function LeadingSpace(s: string): nat {
    |s| - |TrimStart(s)|
  }

  /** `s.strip()`: `s` with whitespace removed from both ends. */
  function Strip(s: string): (r: string)
    ensures IsStripped(r)
    ensures LeadingSpace(s) + |r| <= |s|
    ensures r == s[LeadingSpace(s)..LeadingSpace(s) + |r|]
    ensures AllSpace(s[..LeadingSpace(s)]) && AllSpace(s[LeadingSpace(s) + |r|..])
  {
    var t := TrimStart(s);
    var r := TrimEnd(t);
    var k := |s| - |t|;
    assert r == s[k..k + |r|];
    assert s[k + |r|..] == t[|r|..];
    assert r != [] ==> r[0] == t[0];
    r
  }

  lemma NoUpperInfix(l: string, k: nat, r: string)
    requires NoUpper(l) && k + |r| <= |l| && r == l[k..k + |r|]
    ensures NoUpper(r)
  {
  }

  /** `s.lower().strip()`, the email normalisation of the login flow. */
  function Normalise(s: string): (r: string)
    ensures IsNormalised(r)
  {
    var l := Lower(s);
    var r := Strip(l);
    NoUpperInfix(l, LeadingSpace(l), r);
    r
  }

  lemma AllSpaceAppend(a: string, b: string)
    requires AllSpace(a) && AllSpace(b)
    ensures AllSpace(a + b)
  {
  }

  lemma StripAllSpace(s: string)
    requires AllSpace(s)
    ensures Strip(s) == []
  {
  }

  lemma TrimStartSkips(a: string, m: string, b: string)
    requires AllSpace(a) && m != [] && !IsSpace(m[0])
    ensures TrimStart(a + m + b) == m + b
  {
    var s := a + m + b;
    var r := TrimStart(s);
    var k := |s| - |r|;
    assert s[|a|] == m[0];
    assert forall j :: 0 <= j < |a| ==> s[j] == a[j];
    assert k < |s| ==> r[0] == s[k];
    assert k == |a|;
    assert s[|a|..] == m + b;
  }

  lemma TrimEndSkips(m: string, b: string)
    requires AllSpace(b) && m != [] && !IsSpace(m[|m| - 1])
    ensures TrimEnd(m + b) == m
  {
    var s := m + b;
    var r := TrimEnd(s);
    assert s[|m| - 1] == m[|m| - 1];
    assert forall j :: |m| <= j < |s| ==> s[j] == b[j - |m|];
    assert r != [] ==> r[|r| - 1] == s[|r| - 1];
    assert |r| == |m|;
  }

  /**
   * `strip` is determined by its result's shape: whatever blank prefix and
   * suffix surround a stripped core, stripping returns exactly that core.
   */
  lemma StripCharacterised(a: string, m: string, b: string)
    requires AllSpace(a) && AllSpace(b) && IsStripped(m)
    ensures Strip(a + m + b) == m
  {
    if m == [] {
      AllSpaceAppend(a, b);
      assert a + m + b == a + b;
      StripAllSpace(a + b);
    } else {
      TrimStartSkips(a, m, b);
      TrimEndSkips(m, b);
    }
  }

  /** Stripping twice is stripping once. */
  lemma StripIdempotent(s: string)
    ensures Strip(Strip(s)) == Strip(s)
  {
  }

  /** A normalised email is its own normal form. */
  lemma NormaliseFixesNormalised(s: string)
    requires IsNormalised(s)
    ensures Normalise(s) == s
  {
  }

  /** Normalisation is idempotent. */
  lemma NormaliseIdempotent(s: string)
    ensures Normalise(Normalise(s)) == Normalise(s)
  {
  }

  /** Letters that differ only in case normalise alike. */
  lemma NormaliseIgnoresCase(a: string, b: string)
    requires SameIgnoringCase(a, b)
    ensures Normalise(a) == Normalise(b)
  {
    assert Lower(a) == Lower(b);
  }

  lemma LowerSurrounded(pre: string, s: string, post: string)
    requires AllSpace(pre) && AllSpace(post)
    ensures Lower(pre + s + post) == pre + Lower(s) + post
  {
  }

  lemma ConcatSplit(pre: string, l: string, post: string, x: string, m: string, y: string)
    requires l == x + m + y
    ensures pre + l + post == (pre + x) + m + (y + post)
  {
  }

  /** Extra blanks around a string do not change what `strip` returns. */
  lemma StripIgnoresSurroundingSpace(pre: string, l: string, post: string)
    requires AllSpace(pre) && AllSpace(post)
    ensures Strip(pre + l + post) == Strip(l)
  {
    var m := Strip(l);
    var k := LeadingSpace(l);
    var c := l[k + |m|..];
    var a := pre + l[..k];
    var b := c + post;
    AllSpaceAppend(pre, l[..k]);
    AllSpaceAppend(c, post);
    ConcatSplit(pre, l, post, l[..k], m, c);
    StripCharacterised(a, m, b);
  }

  /** Leading and trailing whitespace does not change the normal form. */
  lemma NormaliseIgnoresSurroundingSpace(pre: string, s: string, post: string)
    requires AllSpace(pre) && AllSpace(post)
    ensures Normalise(pre + s + post) == Normalise(s)
  {
    LowerSurrounded(pre, s, post);
    StripIgnoresSurroundingSpace(pre, Lower(s), post);
  }
}

=== FILE: wrappers.dfy ===
/** Failure-carrying datatypes shared by the rest of the model. */
module Wrappers {

  /** An optional value: Python's `X | None`. */
  datatype Option<+T> = None | Some(value: T)

  /** Either a successful value or the error that ended the request. */
  datatype Result<+T, +E> = Ok(value: T) | Err(error: E)
}
